=== FILE: README.md ===
# Background remover: selection, validation and naming, in Dafny

A model of the parts of a small background-removal web application that decide what gets
processed and what the results are called:

- **The upload page** (`static/scripts.js`):
  - the selection list and the `isProcessing` flag;
  - the extension filter and 500 MiB check of `handleFiles`;
  - `removeFile`, including `Array.prototype.splice`'s handling of out-of-range indices;
  - the process button and the guard of `processImages`;
  - the loading-message and progress-tick tiers;
  - the `try`/`catch`/`finally` settling of a request;
  - the five-second reset after results, and the Escape key.
- **The server** (`app.py`):
  - `allowed_file`;
  - the framework's body-size limit (`MAX_CONTENT_LENGTH`), its limit on the number of multipart
    parts, and their 413 reply;
  - the validation, size check and single/bulk branching of `upload_file`, with its exact error replies;
  - the archive entry names of `process_bulk_images_parallel`;
  - the file names the download and preview routes use.
- **How the two sides relate** (`Agreement`):
  - both sides accept the same extensions and use the same limit;
  - they disagree on names without a '.';
  - a selection the page sends with a '.' in every name reaches `upload_file` whole, when the
    body fits the framework's limits.

Modules:

| file | module | contents |
|---|---|---|
| `strings.dfy` | `Strings` | last-index search, the text after the last occurrence of a character, ASCII lower-casing, prefix/suffix tests |
| `sequences.dfy` | `Sequences` | `Option`, order-preserving `Filter`, `SumOf` |
| `paths.dfy` | `Paths` | POSIX `os.path.basename`, the root half of `os.path.splitext`, `os.path.join` |
| `client.dfy` | `Client` | the page's handlers as pure functions from state to state |
| `client_runs.dfy` | `ClientRuns` | any interleaving of user events, replies and timers, and the invariant it keeps |
| `server.dfy` | `Server` | `allowed_file`, `upload_file`, entry names, download and preview names |
| `agreement.dfy` | `Agreement` | page against server |

Design decisions:

- **The page's size check is per pick.** One might read the 500 MB check as a limit on the
  selection. The code (`static/scripts.js:185-193`) sums only the files of the new pick and
  then appends them, so the model does the same. `Client.SelectionCanExceedLimit` shows two
  accepted picks leaving 600 MiB selected. Such a selection never reaches `upload_file`'s
  own size check. `MAX_CONTENT_LENGTH` (`app.py:18`) limits the whole multipart body to the
  same 500 MiB, and the body is longer than the files it carries. The framework therefore
  answers 413 as soon as `upload_file` reads `request.files`
  (`Server.HandleUpload`, `Agreement.FullSelectionRefusedWith413`). The same happens to a
  single pick of exactly 500 MiB, which the page accepts. `upload_file`'s check at
  `app.py:159-160` can never fire (`Server.SizeCheckUnreachable`).
- **The number of files.** The page puts no bound on how many files are selected. Werkzeug's
  multipart parser refuses a body with more than 1000 parts (`max_form_parts`, Flask's
  `MAX_FORM_PARTS`), also with 413 and also before `upload_file` runs. A selection of 1001
  small images is therefore refused whatever its size (`Agreement.ManyFilesRefusedWith413`).
- **Extensions.** JavaScript's `split('.').pop()` and Python's `rsplit('.', 1)[1]` both take
  the text after the last '.', and both become `AfterLast('.', ·)`. The page does not first
  require a '.', so a name without one is its own extension. The server does require one.
- **Case.** `toLowerCase` and `.lower()` are modelled as ASCII lower-casing.
- **The missing `file` field.** `'file' not in request.files` is modelled as a request with
  no parts.
- **Truthiness of a part.** A werkzeug `FileStorage` is truthy exactly when its file name is
  non-empty.
- **Uploaded names.** The stem reasoning assumes a part's name holds no '/'. Werkzeug does
  not strip one.
- **Randomness and outcomes.** Every uuid4 token, every background-removal result and any
  exception escaping the processing block arrive through a `Server.Env` parameter.
- **Server replies.** The page sees a reply as a `Client.Response`, which is one of three
  cases:
  - success;
  - a reply without `success`;
  - an exception from `fetch` or from JSON parsing.

## Model

| member | source | states |
|---|---|---|
| Client.IsImageNameIff | static/scripts.js:173-177 | a name passes the page's filter exactly when the lower-cased text after its last '.' is one of the six accepted extensions; a name with no '.' is judged by its whole text |
| Client.ValidFilesSpec | static/scripts.js:173-177 | a file survives the filter iff it was picked and has an image name; filtering distributes over concatenation, so order is kept |
| Client.HandleFiles | static/scripts.js:172-193 | the invalid-selection notice iff no picked file is an image; the size notice iff some file is an image and the images of the pick total more than 500 MiB; a rejected pick leaves the state unchanged; an accepted one appends exactly the image files, in order |
| Client.HandleFilesAppends | static/scripts.js:179-193 | a pick with at least one image file, whose images total at most 500 MiB, is accepted; it keeps the old selection as a prefix and grows the count and the byte total by exactly the kept files |
| Client.HandleFilesLimitInclusive | static/scripts.js:186-188 | a pick of exactly 500 MiB is accepted (the comparison is strict) |
| Client.TwoPicksAccepted | static/scripts.js:185-193 | two image files that each fit the limit are both accepted when picked one after the other, whatever their sum |
| Client.SelectionCanExceedLimit | static/scripts.js:185-193 | two 300 MiB picks are both accepted and leave 600 MiB selected |
| Client.RemoveFile | static/scripts.js:257-276 | an index in range removes exactly that file and keeps the rest in order; a negative index counts from the end and is clamped at 0; an index past the end, or any index on an empty selection, changes nothing |
| Client.RemoveFileLosesOne | static/scripts.js:272 | removing an index in range loses exactly one copy of that file from the multiset |
| Client.Escape | static/scripts.js:543-548 | afterwards nothing is selected; the notice appears iff something was selected; otherwise the state is untouched |
| Client.ProcessButton | static/scripts.js:286-306 | the button is enabled iff files are selected and no request runs; its caption shows the count iff the button is enabled and more than one file is selected |
| Client.ButtonMatchesGuard | static/scripts.js:286-311 | the button is enabled exactly when a click passes the `processImages` guard |
| Client.StartProcessing | static/scripts.js:308-346 | a click is ignored iff the selection is empty or a request runs; otherwise the flag goes up and the whole selection is sent, in order |
| Client.TiersAgree | static/scripts.js:328-374 | the loading message and the progress tick period switch at the same thresholds: more than 50 files, and 21 to 50 files |
| Client.TickPeriodNonIncreasing | static/scripts.js:374 | more files never give a longer tick period |
| Client.FailureMessage | static/scripts.js:358 | the message is never empty; a non-empty server error is shown as is, and a missing or empty one is replaced by 'Processing failed' |
| Client.Settle | static/scripts.js:342-366 | whatever the response, the flag is cleared and the selection kept; the reset is scheduled iff the response succeeded; every failure shows a message |
| Client.StartThenSettle | static/scripts.js:308-366 | a request started and settled with nothing in between returns the page to its starting state |
| Client.ResetAfterResults | static/scripts.js:466-472 | the timer empties the selection and leaves the flag alone |
| ClientRuns.InitialGood | static/scripts.js:87-88 | the initial state satisfies the page invariant |
| ClientRuns.ApplyKeepsGood | static/scripts.js:172-548 | every handler keeps the invariant: at most one request is outstanding, the flag is up exactly while one is, only image files are selected, and every request carried at least one image file. The handlers are `handleFiles` (172-193), `removeFile` (257-276), `processImages` (308-366), the reset timer (466-472) and the Escape key (543-548) |
| ClientRuns.RunKeepsGood | static/scripts.js:308-366 | the invariant holds after any sequence of events |
| ClientRuns.ClickWhileProcessingIgnored | static/scripts.js:309 | a click while a request is outstanding changes nothing and sends nothing |
| ClientRuns.ClickSendsSelection | static/scripts.js:343-346 | a click sends a request iff the button is enabled, and the request carries the whole selection |
| ClientRuns.ReplyClearsFlag | static/scripts.js:362-366 | after any reply, no request is outstanding, the flag is down and the selection is unchanged |
| Paths.Basename | app.py:101 | the basename holds no '/', is a suffix of the path, and is the whole path or follows a '/' |
| Paths.SplitExtRoot | app.py:102 | the path is cut iff its last '.' comes after its last '/' and something other than a dot precedes that '.' in the last component; a cut root is the prefix before that '.'; otherwise the root is the whole path |
| Paths.BasenameOfJoin | app.py:96 | the basename of a joined path is the joined name, when that name holds no '/' |
| Server.AllowedFileIff | app.py:54-56 | a name is allowed iff it has a '.' with no '.' after it, and the lower-cased text after that '.' is an allowed extension |
| Server.ValidUploadsSpec | app.py:145-153 | a part is valid iff it has a non-empty, allowed name; validity and the size total distribute over concatenation, so request order is kept |
| Server.UploadFile | app.py:134-231 | "No file selected" iff there are no parts; the no-valid-images error iff there are parts but none is valid; the size error iff the valid parts total more than 500 MiB. Past those checks, an exception gives the processing error with its message. Otherwise one valid part succeeds as `single` iff its removal worked (`ProcessingFailed` otherwise), and two or more always succeed as `bulk`. A success counts every valid part; the single result is `processed_<hex>.png` and names the client's file, and the bulk result is `batch_<hex8>.zip` and carries the valid parts' total |
| Server.Status | app.py:137-257 | validation and the size check answer 400, the oversized body 413, and failed or crashed processing 500; every error reply has one of these three statuses |
| Server.ErrorMessage | app.py:134-231 | each error reply carries a non-empty text |
| Server.ErrorMessagesDistinct | app.py:134-231 | different fixed errors have different texts; a processing error's text gives back the exception's message |
| Server.HandleUpload | app.py:18 | a body longer than `MAX_CONTENT_LENGTH`, or one with more than 1000 parts, gets the 413 reply, and only such a body does; any other request gets `upload_file`'s reply |
| Server.SizeCheckUnreachable | app.py:158-160 | for any body that holds its parts, the size error of `upload_file` never reaches the client, and valid parts of 500 MiB or more get 413 |
| Server.UploadLimitInclusive | app.py:159-160 | valid parts of exactly 500 MiB pass the size check, and a bulk request without an exception then succeeds |
| Server.ArchiveEntryForUpload | app.py:100-104 | the entry for an upload saved under a token is the token, '_', the client's name without its last extension, and `_no_bg.png` |
| Server.ArchiveEntryStartsWithToken | app.py:168-169 | every entry name starts with the token its input was saved under |
| Server.ArchiveEntriesDistinct | app.py:100-119 | inputs saved under different tokens of one length get different entry names, so no archive entry overwrites another |
| Server.ArchiveEntries | app.py:113-122 | the archive holds an entry for a planned name exactly when some task with that name had a working removal; the archive never holds more entries than there are tasks, and holds all of them iff every removal worked |
| Server.BulkCountIsRequestCount | app.py:216-222 | the bulk reply's `file_count` counts the valid files sent; one failed removal leaves the archive with fewer entries than that count |
| Server.ArchiveNameShape | app.py:95-96 | the bulk reply's file name is `batch_<token>.zip`; it has no '/' and ends in `.zip` |
| Server.SingleNameShape | app.py:177 | the single reply's file name has no '/' and does not end in `.zip` |
| Server.DownloadName | app.py:233-240 | the download name has no '/', and ends in `.zip` iff the requested file's safe name does |
| Server.DownloadNameCases | app.py:235-239 | an archive downloads as `background_removed_images.zip`; any other file downloads under its safe name with the `background_removed_` prefix |
| Server.SafeNameSpec | app.py:249-252 | the safe name has no '/', ends the requested path, and is unchanged by a second application |
| Server.RepliedFilesServedAsNamed | app.py:233-239 | the file a success reply names is `processed_<hex>.png` or `batch_<hex8>.zip`, and is its own safe name; it downloads as `background_removed_processed_<hex>.png` or `background_removed_images.zip` |
| Server.OriginalFileIsNotSavedName | app.py:168-192 | the single reply's `original_file` is not the name the input was saved under, so the preview route is asked for a different file |
| Agreement.SameRules | static/scripts.js:175-186 | the page's six extensions are the server's allowed set, and the page's limit is the server's |
| Agreement.ServerAcceptsOnlyPageAccepted | app.py:54-56 | every name the server allows also passes the page's filter |
| Agreement.DivergenceIsDotlessNames | app.py:54-56 | the page accepts a name and the server rejects it iff the name has no '.' and is itself an allowed extension, ignoring case |
| Agreement.DotlessPngDiverges | static/scripts.js:174 | the name `png` passes the page's filter and fails `allowed_file` |
| Agreement.AsUploads | static/scripts.js:343-346 | the request carries one part per selected file, in order, with the file's name and size |
| Agreement.SizesCarryOver | app.py:148-152 | the server measures the same byte total the page measured |
| Agreement.ServerKeepsDottedFiles | app.py:145-153 | of a selection the page built, the server keeps exactly the files whose names have a '.', in order |
| Agreement.DottedSelectionCountedWhole | app.py:155-220 | for a sent selection with a '.' in every name, `upload_file` gives the size error iff the selection totals over 500 MiB, and a success counts every file |
| Agreement.ServerErrorShownAsSent | static/scripts.js:358 | the page shows a server error text exactly as sent, never its fallback text |
| Agreement.FullSelectionRefusedWith413 | app.py:18 | a sent selection of 500 MiB or more is refused with 413 |
| Agreement.ManyFilesRefusedWith413 | static/scripts.js:343-350 | a sent selection of more than 1000 files is refused with 413, whatever its size |

## Left out

- **Animations, DOM updates and timing.** The GSAP animations, notifications, scrolling, DOM
  rendering (`updateFileList`, `showResults`, `showError`) and `formatFileSize` are left out.
  They draw; they do not change the state.
- **Theme and the Ctrl+U shortcut.** The theme toggle, `localStorage` and the shortcut do not
  touch the selection.
- **Progress animation.** `simulateProgress`'s increments, its random jitter and its 90%
  ceiling are floating-point animation. Only the tick period is modelled.
- **The removal animation delay in `removeFile`.** The model applies the `splice` at once.
  With the file's element present, the real page applies it 0.3 s later.
- **`fetch`, `FormData` and JSON parsing.** Their outcome is the `Client.Response` parameter.
- **Background removal.** rembg, PIL, saving and deleting files are modelled only through
  `Server.Env`: per-file success, and an optional exception message.
- **How the archive is written.** Zip writing, the thread pool and completion order are left
  out. `Server.ArchiveEntries` lists entries in task order, not completion order.
- **The cleanup thread.** Its hourly deletion of old files is left out.
- **Flask and werkzeug.** Routing, `send_from_directory` and the 500 handler are left out.
  The exact length of a multipart body is not modelled. `Server.BodyHolds` only bounds it
  from below: every part's bytes plus one byte of framing per part.
- **Case mapping.** Lower-casing is ASCII only. JavaScript and Python also lower-case
  non-ASCII letters.
- **`test.py`.** It only checks the environment: it prints the Python version and checks that
  the upload folder, the templates, `app.py` and `requirements.txt` exist. It holds no
  behaviour of the core.
- Server.HandleUpload: assumes werkzeug's default part limit of 1000, which exists from werkzeug 2.2.3 on. With an older werkzeug, or another `MAX_FORM_PARTS`, the part-count case differs. The framework's other parser limits (form-field memory, header size) are not modelled, because the page sends only `file` parts.
- Server.UploadFile: the exception path takes one optional message for the whole block. The model does not say which statement raised it, or which inputs had been saved before it.
- Server.UploadLimitInclusive: states what `upload_file` itself does with valid parts of exactly 500 MiB. In the running server such a request never reaches `upload_file`, because its body is over `MAX_CONTENT_LENGTH` and the framework answers 413 (`Server.SizeCheckUnreachable`).
- Agreement.DottedSelectionCountedWhole: relates a selection to `upload_file`'s reply, not the running server's. A selection of 500 MiB or more is refused with 413 before `upload_file` runs (`Agreement.FullSelectionRefusedWith413`).
- Agreement.AsUploads: passes each file name to the server unchanged. Browsers' multipart encoding escapes `"`, CR and LF in file names (as `%22`, `%0D`, `%0A`), and werkzeug does not undo it, so for such names the server's `filename` differs from the page's.
- Server.ArchiveEntriesDistinct: assumes tokens of equal length, as uuid4 hex strings are. It does not cover names that carry '/'.

=== FILE: agreement.dfy ===
/** How the page's checks (static/scripts.js) and the server's checks (app.py) relate.
    Both accept the same six extensions and the same 500 MiB bound, but the page takes
    the text after the last '.' even when there is no '.', so a name such as `png`
    passes in the browser and is dropped by the server. */
module Agreement {
  import opened Strings
  import opened Sequences
  import Client
  import Server

  /** The page's list and the server's set hold the same extensions, and the two size
      limits are the same number. */
  lemma SameRules()
    ensures forall e :: e in Client.AcceptedExtensions <==> e in Server.AllowedExtensions
    ensures Client.MaxPickBytes == Server.MaxTotalBytes
  {
  }

  /** Every name the server accepts, the page accepts too. */
  lemma ServerAcceptsOnlyPageAccepted(name: string)
    ensures Server.AllowedFile(name) ==> Client.IsImageName(name)
  {
    SameRules();
  }

  /** The two checks differ on exactly the names without a '.' that are themselves an
      accepted extension, ignoring case. */
  lemma {:induction false} DivergenceIsDotlessNames(name: string)
    ensures Client.IsImageName(name) && !Server.AllowedFile(name) <==>
              '.' !in name && Lower(name) in Server.AllowedExtensions
  {
    SameRules();
    if '.' !in name {
      Client.ExtensionOfDotlessName(name);
    }
  }

  /** The name `png` is the witness: the page keeps it, the server drops it. */
  lemma DotlessPngDiverges()
    ensures Client.IsImageName("png") && !Server.AllowedFile("png")
  {
    assert Lower("png") == "png";
    DivergenceIsDotlessNames("png");
  }

  /** The request parts the page's `FormData` carries for a selection, in order. */
  function AsUploads(files: seq<Client.File>): (parts: seq<Server.Upload>)
    ensures |parts| == |files|
    ensures forall i :: 0 <= i < |files| ==> parts[i] == Server.Upload(files[i].name, files[i].size)
    decreases |files|
  {
    if |files| == 0 then [] else [Server.Upload(files[0].name, files[0].size)] + AsUploads(files[1..])
  }

  lemma {:induction false} AsUploadsConcat(a: seq<Client.File>, b: seq<Client.File>)
    ensures AsUploads(a + b) == AsUploads(a) + AsUploads(b)
  {
  }

  /** The server measures the same bytes the page measured. */
  lemma {:induction false} SizesCarryOver(files: seq<Client.File>)
    ensures Server.TotalSize(AsUploads(files)) == Client.TotalBytes(files)
    decreases |files|
  {
    if |files| > 0 {
      assert AsUploads(files) == [AsUploads(files)[0]] + AsUploads(files[1..]);
      SizesCarryOver(files[1..]);
    }
  }

  predicate HasDot(f: Client.File)
  {
    '.' in f.name
  }

  /** For a file the page accepted, the server keeps it exactly when its name has a '.'. */
  lemma {:induction false} ServerKeepsIffDot(f: Client.File)
    requires Client.IsImageName(f.name)
    ensures Server.IsValidUpload(Server.Upload(f.name, f.size)) <==> HasDot(f)
  {
    DivergenceIsDotlessNames(f.name);
    if f.name == "" {
      assert Client.Extension(f.name) == "";
    }
  }

  /** Of a selection the page built, the server keeps exactly the files whose names have
      a '.', in selection order. */
  lemma {:induction false} ServerKeepsDottedFiles(files: seq<Client.File>)
    requires forall f :: f in files ==> Client.IsImageName(f.name)
    ensures Server.ValidUploads(AsUploads(files)) == AsUploads(Filter(HasDot, files))
    decreases |files|
  {
    if |files| > 0 {
      var f := files[0];
      var rest := files[1..];
      var u := Server.Upload(f.name, f.size);
      assert files == [f] + rest;
      assert AsUploads(files) == [u] + AsUploads(rest);
      FilterConcat(Server.IsValidUpload, [u], AsUploads(rest));
      FilterSingleton(Server.IsValidUpload, u);
      FilterConcat(HasDot, [f], rest);
      FilterSingleton(HasDot, f);
      ServerKeepsIffDot(f);
      AsUploadsConcat(Filter(HasDot, [f]), Filter(HasDot, rest));
      assert AsUploads([f]) == [u];
      ServerKeepsDottedFiles(rest);
    }
  }

  /** A selection the page sends, with a '.' in every name, reaches `upload_file` whole:
      a success counts every file, and `upload_file`'s own size check fails exactly when
      the selection is over 500 MiB. A body that large is refused with 413 before that
      check runs (`FullSelectionRefusedWith413`). */
  lemma {:induction false} DottedSelectionCountedWhole(files: seq<Client.File>, env: Server.Env)
    requires files != []
    requires forall f :: f in files ==> Client.IsImageName(f.name) && HasDot(f)
    ensures Server.UploadFile(AsUploads(files), env) == Server.Err(Server.TotalTooLarge) <==>
              Client.TotalBytes(files) > Client.MaxPickBytes
    ensures Server.UploadFile(AsUploads(files), env).Ok? ==>
              Server.UploadFile(AsUploads(files), env).outcome.fileCount == |files|
  {
    ServerKeepsDottedFiles(files);
    assert Filter(HasDot, files) == files by {
      FilterAll(files);
    }
    SizesCarryOver(files);
  }

  /** A filter whose predicate holds of every element keeps everything. */
  lemma {:induction false} FilterAll(files: seq<Client.File>)
    requires forall f :: f in files ==> HasDot(f)
    ensures Filter(HasDot, files) == files
    decreases |files|
  {
    if |files| > 0 {
      assert files == [files[0]] + files[1..];
      FilterConcat(HasDot, [files[0]], files[1..]);
      FilterSingleton(HasDot, files[0]);
      FilterAll(files[1..]);
    }
  }

  /** The page shows an error reply's text exactly as the server wrote it: no server
      text is empty, so the page's fallback text never replaces one. */
  lemma {:induction false} ServerErrorShownAsSent(s: Client.Session, e: Server.UploadError)
    ensures Client.Settle(s, Client.Failed(Some(Server.ErrorMessage(e)))).notice ==
              Client.ProcessFailed(Server.ErrorMessage(e))
  {
  }

  /** A selection of 500 MiB or more, which the page lets through when a single pick is
      exactly 500 MiB, never reaches `upload_file`'s checks: its body is over
      `MAX_CONTENT_LENGTH` and the reply is 413. */
  lemma {:induction false} FullSelectionRefusedWith413(files: seq<Client.File>, contentLength: nat, env: Server.Env)
    requires files != [] && Client.TotalBytes(files) >= Client.MaxPickBytes
    requires Server.BodyHolds(contentLength, AsUploads(files))
    ensures Server.HandleUpload(contentLength, AsUploads(files), env) == Server.Err(Server.RequestTooLarge)
  {
    SizesCarryOver(files);
  }

  /** The page puts no bound on how many files are selected, but a request carrying more
      than `MaxFormParts` of them is refused with 413 whatever their size, before
      `upload_file`'s checks. */
  lemma {:induction false} ManyFilesRefusedWith413(files: seq<Client.File>, contentLength: nat, env: Server.Env)
    requires |files| > Server.MaxFormParts
    ensures Server.HandleUpload(contentLength, AsUploads(files), env) == Server.Err(Server.RequestTooLarge)
  {
  }
}

=== FILE: client.dfy ===
/** The upload page's selection state and its transitions (static/scripts.js).
    The page keeps an ordered list of picked files and an `isProcessing` flag;
    every handler below is a pure function from the old state to the new one,
    together with the notification it raises, if any. */
module Client {
  import opened Strings
  import opened Sequences

  /** A browser `File`: its name and its size in bytes. */
  datatype File = File(name: string, size: nat)

  /** `selectedFilesData` and `isProcessing`. */
  datatype Session = Session(files: seq<File>, processing: bool)

  /** The notifications the handlers raise. */
  datatype Notice =
    | InvalidSelection          // no picked file has an accepted extension
    | SizeLimitExceeded         // the accepted part of a pick is over 500 MB
    | SelectionCleared          // Escape emptied the selection
    | Processed(count: nat)     // the server reported success for `count` images
    | ProcessFailed(message: string)

  /** A handler's effect: the new state and the notification shown, if any. */
  datatype Step = Step(session: Session, notice: Option<Notice>)

  /** The extensions `handleFiles` accepts, in the order the page lists them. */
  const AcceptedExtensions: seq<string> := ["jpg", "jpeg", "png", "webp", "bmp", "tiff"]

  /** The page's size limit for one pick: 500 MiB. */
  const MaxPickBytes: nat := 500 * 1024 * 1024

  const InitialSession := Session([], false)

  /** `name.split('.').pop().toLowerCase()`: the lower-cased text after the last '.',
      or the whole lower-cased name when it has no '.'. */
  function Extension(name: string): string
  {
    Lower(AfterLast('.', name))
  }

  predicate IsImageName(name: string)
  {
    Extension(name) in AcceptedExtensions
  }

  predicate IsImageFile(f: File)
  {
    IsImageName(f.name)
  }

  /** The files of a pick that pass the extension filter, in pick order. */
  function ValidFiles(batch: seq<File>): seq<File>
  {
    Filter(IsImageFile, batch)
  }

  function FileBytes(f: File): nat
  {
    f.size
  }

  /** Total size in bytes of a list of files. */
  function TotalBytes(files: seq<File>): nat
  {
    SumOf(FileBytes, files)
  }

  /** The extension is the lower-cased text after the name's last '.'. */
  lemma {:induction false} ExtensionAfterLastDot(name: string, i: nat)
    requires i < |name| && name[i] == '.' && '.' !in name[i + 1..]
    ensures Extension(name) == Lower(name[i + 1..])
  {
    AfterLastAt('.', name, i);
  }

  /** A name without a '.' is its own extension, lower-cased. */
  lemma {:induction false} ExtensionOfDotlessName(name: string)
    requires '.' !in name
    ensures Extension(name) == Lower(name)
  {
  }

  /** A name passes the page's filter exactly when the lower-cased text after its last '.'
      (the whole name when there is no '.') is an accepted extension. */
  lemma {:induction false} IsImageNameIff(name: string)
    ensures IsImageName(name) <==>
              || ('.' !in name && Lower(name) in AcceptedExtensions)
              || (exists i :: 0 <= i < |name| && name[i] == '.' && '.' !in name[i + 1..]
                                && Lower(name[i + 1..]) in AcceptedExtensions)
  {
    if '.' in name {
      var i := LastIndexOf('.', name);
      assert name[i + 1..] == AfterLast('.', name);
      forall j | 0 <= j < |name| && name[j] == '.' && '.' !in name[j + 1..]
        ensures Extension(name) == Lower(name[j + 1..])
      {
        ExtensionAfterLastDot(name, j);
      }
    }
  }

  /** A file survives the filter exactly when it was picked and has an image name; the
      survivors of a split pick are the survivors of each part, in order. */
  lemma {:induction false} ValidFilesSpec(a: seq<File>, b: seq<File>, f: File)
    ensures f in ValidFiles(a) <==> f in a && IsImageName(f.name)
    ensures ValidFiles(a + b) == ValidFiles(a) + ValidFiles(b)
  {
    FilterConcat(IsImageFile, a, b);
  }

  /** `handleFiles`: filter the pick by extension; reject it whole when nothing is left or
      when the filtered pick alone is larger than 500 MiB; otherwise append it. Files that
      are already selected do not count towards the limit. */
  function HandleFiles(s: Session, batch: seq<File>): (r: Step)
    ensures r.session.processing == s.processing
    ensures r.notice == Some(InvalidSelection) <==> forall f :: f in batch ==> !IsImageName(f.name)
    ensures r.notice == Some(SizeLimitExceeded) <==>
              (exists f :: f in batch && IsImageName(f.name)) && TotalBytes(ValidFiles(batch)) > MaxPickBytes
    ensures r.notice == None || r.notice == Some(InvalidSelection) || r.notice == Some(SizeLimitExceeded)
    ensures r.notice.Some? ==> r.session == s
    ensures r.notice.None? ==> r.session.files == s.files + ValidFiles(batch)
  {
    var valid := ValidFiles(batch);
    FilterEmpty(IsImageFile, batch);
    if |valid| == 0 then
      Step(s, Some(InvalidSelection))
    else if TotalBytes(valid) > MaxPickBytes then
      Step(s, Some(SizeLimitExceeded))
    else
      Step(Session(s.files + valid, s.processing), None)
  }

  /** A pick with image files totalling at most 500 MiB is accepted and extends the
      selection: the old selection is a prefix, the length grows by the number of kept
      files and the byte total by their size. */
  lemma {:induction false} HandleFilesAppends(s: Session, batch: seq<File>)
    requires ValidFiles(batch) != [] && TotalBytes(ValidFiles(batch)) <= MaxPickBytes
    ensures HandleFiles(s, batch).notice.None?
    ensures var t := HandleFiles(s, batch).session;
      && |t.files| == |s.files| + |ValidFiles(batch)|
      && t.files[..|s.files|] == s.files
      && TotalBytes(t.files) == TotalBytes(s.files) + TotalBytes(ValidFiles(batch))
  {
    FilterEmpty(IsImageFile, batch);
    var t := HandleFiles(s, batch).session;
    assert t.files[..|s.files|] == s.files;
    SumConcat(FileBytes, s.files, ValidFiles(batch));
  }

  /** A pick whose filtered part totals exactly 500 MiB is accepted. */
  lemma {:induction false} HandleFilesLimitInclusive(s: Session, batch: seq<File>)
    requires ValidFiles(batch) != [] && TotalBytes(ValidFiles(batch)) == MaxPickBytes
    ensures HandleFiles(s, batch).notice.None?
  {
  }

  /** Because only the new pick is measured, the selection itself can grow past 500 MiB:
      two accepted picks of 300 MiB each leave 600 MiB selected. */
  lemma {:induction false} SelectionCanExceedLimit()
    ensures var a := File("a.png", 300 * 1024 * 1024);
      var b := File("b.png", 300 * 1024 * 1024);
      var first := HandleFiles(InitialSession, [a]);
      var second := HandleFiles(first.session, [b]);
      && first.notice.None? && second.notice.None?
      && second.session.files == [a, b]
      && TotalBytes(second.session.files) > MaxPickBytes
  {
    PngNameAccepted("a.png", "a");
    PngNameAccepted("b.png", "b");
    TwoPicksAccepted(File("a.png", 300 * 1024 * 1024), File("b.png", 300 * 1024 * 1024));
  }

  /** Any two image files that each fit the limit are both accepted when picked one after
      the other, and the selection then holds both, whatever their sum. */
  lemma {:induction false} TwoPicksAccepted(a: File, b: File)
    requires IsImageName(a.name) && a.size <= MaxPickBytes
    requires IsImageName(b.name) && b.size <= MaxPickBytes
    ensures var first := HandleFiles(InitialSession, [a]);
      var second := HandleFiles(first.session, [b]);
      && first.notice.None? && second.notice.None?
      && second.session.files == [a, b]
      && TotalBytes(second.session.files) == a.size + b.size
  {
    SinglePickAccepted(InitialSession, a);
    assert InitialSession.files + [a] == [a];
    SinglePickAccepted(Session([a], false), b);
    TotalOfTwo(a, b);
  }

  /** A name of the form `stem.png`, with no '.' in the stem, is an image name. */
  lemma {:induction false} PngNameAccepted(name: string, stem: string)
    requires '.' !in stem && name == stem + ".png"
    ensures IsImageName(name)
  {
    assert name[|stem|] == '.' && name[|stem| + 1..] == "png";
    AfterLastAt('.', name, |stem|);
    assert Lower("png") == "png";
  }

  /** A pick of one image file within the limit is appended. */
  lemma {:induction false} SinglePickAccepted(s: Session, f: File)
    requires IsImageName(f.name) && f.size <= MaxPickBytes
    ensures HandleFiles(s, [f]) == Step(Session(s.files + [f], s.processing), None)
  {
    FilterSingleton(IsImageFile, f);
    assert [f][1..] == [];
    assert SumOf(FileBytes, [f]) == f.size + SumOf(FileBytes, []);
  }

  /** Two files appended one after the other form the pair, and the pair's size is the sum. */
  lemma {:induction false} TotalOfTwo(a: File, b: File)
    ensures [a] + [b] == [a, b]
    ensures TotalBytes([a, b]) == a.size + b.size
  {
    assert [a, b][1..] == [b];
    assert [b][1..] == [];
    assert SumOf(FileBytes, [b]) == b.size + SumOf(FileBytes, []);
    assert SumOf(FileBytes, [a, b]) == a.size + SumOf(FileBytes, [b]);
  }

  /** Where `Array.prototype.splice(index, 1)` starts: a negative index counts from the
      end (clamped at 0), an index past the end is clamped to the length. */
  function SpliceStart(index: int, len: nat): (k: nat)
    ensures k <= len
    ensures 0 <= index <= len ==> k == index
    ensures index < 0 && index + len >= 0 ==> k == index + len
    ensures index + len < 0 ==> k == 0
    ensures index > len ==> k == len
  {
    if index < 0 then (if len + index < 0 then 0 else len + index)
    else if index > len then len
    else index
  }

  /** `after` is `before` with the element at `k` taken out and the rest kept in order. */
  ghost predicate RemovedAt(before: seq<File>, after: seq<File>, k: nat)
  {
    && k < |before|
    && |after| == |before| - 1
    && (forall j :: 0 <= j < k ==> after[j] == before[j])
    && (forall j :: k <= j < |after| ==> after[j] == before[j + 1])
  }

  /** `removeFile(index)`: `selectedFilesData.splice(index, 1)`. An index inside the list
      removes that file; a negative one counts from the end; one past the end removes
      nothing. */
  function RemoveFile(s: Session, index: int): (r: Session)
    ensures r.processing == s.processing
    ensures 0 <= index < |s.files| ==> RemovedAt(s.files, r.files, index)
    ensures index < 0 && index + |s.files| >= 0 ==> RemovedAt(s.files, r.files, index + |s.files|)
    ensures index + |s.files| < 0 && |s.files| > 0 ==> RemovedAt(s.files, r.files, 0)
    ensures index >= |s.files| ==> r == s
    ensures |s.files| == 0 ==> r == s
  {
    var k := SpliceStart(index, |s.files|);
    if k < |s.files| then Session(s.files[..k] + s.files[k + 1..], s.processing) else s
  }

  /** Removing a file in range loses exactly that one file. */
  lemma {:induction false} RemoveFileLosesOne(s: Session, index: nat)
    requires index < |s.files|
    ensures multiset(RemoveFile(s, index).files) + multiset{s.files[index]} == multiset(s.files)
  {
    assert s.files == s.files[..index] + [s.files[index]] + s.files[index + 1..];
  }

  /** The Escape key: a non-empty selection is emptied and a notice shown. */
  function Escape(s: Session): (r: Step)
    ensures r.session.processing == s.processing
    ensures r.session.files == []
    ensures r.notice == Some(SelectionCleared) <==> |s.files| > 0
    ensures r.notice.None? ==> r.session == s
  {
    if |s.files| > 0 then Step(Session([], s.processing), Some(SelectionCleared)) else Step(s, None)
  }

  /** The label `updateProcessButton` puts on the button. */
  datatype Label = ProcessCount(count: nat) | ProcessOne | ProcessIdle

  datatype Button = Button(enabled: bool, caption: Label)

  /** `updateProcessButton`: enabled exactly when something is selected and no request runs. */
  function ProcessButton(s: Session): (b: Button)
    ensures b.enabled <==> |s.files| > 0 && !s.processing
    ensures b.caption.ProcessCount? ==> b.enabled && b.caption.count == |s.files| && b.caption.count > 1
    ensures b.caption == ProcessOne <==> b.enabled && |s.files| == 1
    ensures b.caption == ProcessIdle <==> !b.enabled
  {
    if |s.files| > 0 && !s.processing then
      if |s.files| > 1 then Button(true, ProcessCount(|s.files|)) else Button(true, ProcessOne)
    else
      Button(false, ProcessIdle)
  }

  /** The three loading messages, chosen by the number of files sent. */
  datatype LoadingText = FewMinutes | InParallel | Plain

  /** The loading message tier: more than 50 files, 21 to 50 files, and the rest. */
  function LoadingTextFor(count: nat): LoadingText
  {
    if count > 50 then FewMinutes else if count > 20 then InParallel else Plain
  }

  /** The progress animation's tick period in milliseconds. */
  function TickPeriod(count: nat): (ms: nat)
  {
    if count > 50 then 100 else if count > 20 then 150 else 200
  }

  /** The tick period is one of three values, decided by the same thresholds as the
      loading message. */
  lemma {:induction false} TiersAgree(count: nat)
    ensures TickPeriod(count) == 100 <==> LoadingTextFor(count) == FewMinutes
    ensures TickPeriod(count) == 150 <==> LoadingTextFor(count) == InParallel
    ensures TickPeriod(count) == 200 <==> LoadingTextFor(count) == Plain
    ensures LoadingTextFor(count) == FewMinutes <==> count > 50
    ensures LoadingTextFor(count) == InParallel <==> 20 < count <= 50
  {
  }

  /** More files never make the animation tick more slowly. */
  lemma {:induction false} TickPeriodNonIncreasing(m: nat, n: nat)
    requires m <= n
    ensures TickPeriod(n) <= TickPeriod(m)
  {
  }

  /** What a click on the process button does. */
  datatype Start =
    | Ignored
    | Dispatched(session: Session, upload: seq<File>, tickPeriod: nat, loading: LoadingText)

  /** The guard and set-up of `processImages`: nothing happens with an empty selection or
      while a request runs; otherwise the flag is raised and one request carrying the
      whole selection, in order, is sent. */
  function StartProcessing(s: Session): (r: Start)
    ensures r.Ignored? <==> |s.files| == 0 || s.processing
    ensures r.Dispatched? ==>
              && r.session == Session(s.files, true)
              && r.upload == s.files
              && r.tickPeriod == TickPeriod(|s.files|)
              && r.loading == LoadingTextFor(|s.files|)
  {
    if |s.files| == 0 || s.processing then Ignored
    else Dispatched(Session(s.files, true), s.files, TickPeriod(|s.files|), LoadingTextFor(|s.files|))
  }

  /** The button is enabled exactly when a click would send a request. */
  lemma {:induction false} ButtonMatchesGuard(s: Session)
    ensures ProcessButton(s).enabled <==> StartProcessing(s).Dispatched?
  {
  }

  /** What the server answered, as the page sees it. */
  datatype Result =
    | SingleResult(originalFile: Option<string>, outputFile: string, fileCount: nat)
    | BulkResult(outputFile: string, fileCount: nat)

  datatype Response =
    | Succeeded(result: Result)          // `success` is true
    | Failed(error: Option<string>)      // `success` is false or missing
    | Broken(message: string)            // the request or the JSON parse threw

  /** The state after the request settles, and whether the five-second reset was scheduled. */
  datatype Settled = Settled(session: Session, notice: Notice, resetScheduled: bool)

  const FallbackError := "Processing failed"

  /** The message shown for a failed response: the server's `error`, or the fallback when
      it is missing or empty (JavaScript's `result.error || 'Processing failed'`). */
  function FailureMessage(error: Option<string>): (m: string)
    ensures m != ""
    ensures error.Some? && error.value != "" ==> m == error.value
    ensures error.None? || error.value == "" ==> m == FallbackError
  {
    if error.Some? && error.value != "" then error.value else FallbackError
  }

  /** The `try`/`catch`/`finally` tail of `processImages`: success reports the count and
      schedules the reset, failure reports a message; either way the flag is cleared and
      the selection is left as it is. */
  function Settle(s: Session, response: Response): (r: Settled)
    ensures !r.session.processing
    ensures r.session.files == s.files
    ensures r.resetScheduled <==> response.Succeeded?
    ensures response.Succeeded? ==> r.notice == Processed(response.result.fileCount)
    ensures response.Failed? ==> r.notice == ProcessFailed(FailureMessage(response.error))
    ensures response.Broken? ==> r.notice == ProcessFailed(response.message)
  {
    var done := Session(s.files, false);
    match response
    case Succeeded(result) => Settled(done, Processed(result.fileCount), true)
    case Failed(error) => Settled(done, ProcessFailed(FailureMessage(error)), false)
    case Broken(message) => Settled(done, ProcessFailed(message), false)
  }

  /** Starting and then settling, with nothing in between, returns to the starting state. */
  lemma {:induction false} StartThenSettle(s: Session, response: Response)
    requires StartProcessing(s).Dispatched?
    ensures Settle(StartProcessing(s).session, response).session == s
  {
  }

  /** The timer `showResults` sets: five seconds later the selection is emptied,
      whatever it holds by then. */
  function ResetAfterResults(s: Session): (r: Session)
    ensures r.files == [] && r.processing == s.processing
  {
    Session([], s.processing)
  }
}

=== FILE: client_runs.dfy ===
/** The upload page over time: any interleaving of user events, server replies and the
    post-results timer. The page sends a request only from the process button's handler,
    and the `isProcessing` flag keeps at most one request outstanding. */
module ClientRuns {
  import opened Sequences
  import opened Client

  /** Everything that can change the page's selection state. */
  datatype Event =
    | Pick(batch: seq<File>)          // file input change or drop
    | Remove(index: int)              // a file's remove button
    | EscapeKey
    | ProcessClick
    | Reply(response: Response)       // the outstanding request settles
    | ResultsTimer                    // the five-second reset after results

  /** The page state, how many requests are outstanding, and every upload sent so far. */
  datatype Machine = Machine(session: Session, inFlight: nat, sent: seq<seq<File>>)

  const Initial := Machine(InitialSession, 0, [])

  /** One event. A reply only arrives for an outstanding request; the reset timer may
      fire at any moment, which covers every real schedule of it. */
  function Apply(m: Machine, e: Event): Machine
  {
    match e
    case Pick(batch) => m.(session := HandleFiles(m.session, batch).session)
    case Remove(index) => m.(session := RemoveFile(m.session, index))
    case EscapeKey => m.(session := Escape(m.session).session)
    case ProcessClick =>
      (match StartProcessing(m.session)
       case Ignored => m
       case Dispatched(s, upload, _, _) => Machine(s, m.inFlight + 1, m.sent + [upload]))
    case Reply(response) =>
      if m.inFlight == 0 then m
      else Machine(Settle(m.session, response).session, m.inFlight - 1, m.sent)
    case ResultsTimer => m.(session := ResetAfterResults(m.session))
  }

  function Run(m: Machine, events: seq<Event>): Machine
    decreases |events|
  {
    if |events| == 0 then m else Run(Apply(m, events[0]), events[1..])
  }

  /** Every selected file and every file sent has an accepted extension. */
  ghost predicate AllImages(files: seq<File>)
  {
    forall f :: f in files ==> IsImageName(f.name)
  }

  /** The page invariant: at most one request is outstanding, the flag is up exactly
      while one is, the selection holds only image files, and every request sent
      carried at least one image file. */
  ghost predicate Good(m: Machine)
  {
    && m.inFlight <= 1
    && (m.session.processing <==> m.inFlight == 1)
    && AllImages(m.session.files)
    && forall i :: 0 <= i < |m.sent| ==> m.sent[i] != [] && AllImages(m.sent[i])
  }

  lemma {:induction false} InitialGood()
    ensures Good(Initial)
  {
  }

  /** Each handler keeps the invariant. */
  lemma {:induction false} ApplyKeepsGood(m: Machine, e: Event)
    requires Good(m)
    ensures Good(Apply(m, e))
  {
    match e
    case Pick(batch) =>
      var r := HandleFiles(m.session, batch);
      if r.notice.None? {
        forall f | f in r.session.files
          ensures IsImageName(f.name)
        {
          ValidFilesSpec(batch, [], f);
        }
      }
    case Remove(index) =>
      var r := RemoveFile(m.session, index);
      forall f | f in r.files
        ensures IsImageName(f.name)
      {
        var j :| 0 <= j < |r.files| && r.files[j] == f;
        if r != m.session {
          var k := SpliceStart(index, |m.session.files|);
          assert f == m.session.files[if j < k then j else j + 1];
        }
      }
    case EscapeKey =>
    case ProcessClick =>
    case Reply(response) =>
    case ResultsTimer =>
  }

  /** The invariant holds after any sequence of events. */
  lemma {:induction false} RunKeepsGood(m: Machine, events: seq<Event>)
    requires Good(m)
    ensures Good(Run(m, events))
    decreases |events|
  {
    if |events| > 0 {
      ApplyKeepsGood(m, events[0]);
      RunKeepsGood(Apply(m, events[0]), events[1..]);
    }
  }

  /** Single flight: while a request is outstanding, clicking again sends nothing and
      changes nothing. */
  lemma {:induction false} ClickWhileProcessingIgnored(m: Machine)
    requires Good(m) && m.inFlight == 1
    ensures Apply(m, ProcessClick) == m
  {
  }

  /** A click sends a request exactly when the button is enabled, and that request is the
      whole selection. */
  lemma {:induction false} ClickSendsSelection(m: Machine)
    requires Good(m)
    ensures |Apply(m, ProcessClick).sent| == |m.sent| + 1 <==> ProcessButton(m.session).enabled
    ensures ProcessButton(m.session).enabled ==>
              Apply(m, ProcessClick).sent == m.sent + [m.session.files] && Apply(m, ProcessClick).inFlight == 1
  {
  }

  /** Whatever the reply, once it is handled no request is outstanding and the flag is down. */
  lemma {:induction false} ReplyClearsFlag(m: Machine, response: Response)
    requires Good(m) && m.inFlight == 1
    ensures !Apply(m, Reply(response)).session.processing
    ensures Apply(m, Reply(response)).inFlight == 0
    ensures Apply(m, Reply(response)).session.files == m.session.files
  {
  }
}

=== FILE: paths.dfy ===
/** The two POSIX path functions the server applies to file names:
    `os.path.basename` and the root half of `os.path.splitext`. */
module Paths {
  import opened Strings

  /** `os.path.basename`: the text after the last '/', or all of `p` when it has none. */
  function Basename(p: string): (r: string)
    ensures '/' !in r
    ensures |r| <= |p| && r == p[|p| - |r|..]
    ensures |r| < |p| ==> p[|p| - |r| - 1] == '/'
  {
    AfterLast('/', p)
  }

  /** Taking the basename twice changes nothing. */
  lemma {:induction false} BasenameIdempotent(p: string)
    ensures Basename(Basename(p)) == Basename(p)
  {
  }

  /** Some character of `p` at an index in [lo, hi) is not a '.'. */
  predicate HasNonDot(p: string, lo: int, hi: int)
  {
    exists k :: lo <= k < hi && 0 <= k < |p| && p[k] != '.'
  }

  /** The root that `os.path.splitext` returns: `p` cut before its last '.', provided
      that '.' lies after the last '/' and is preceded in the final component by
      something other than dots; otherwise all of `p` (no extension). */
  function SplitExtRoot(p: string): (root: string)
    ensures |root| <= |p| && root == p[..|root|]
    ensures |root| < |p| ==> p[|root|] == '.'
    ensures |root| < |p| ==> forall k :: |root| < k < |p| ==> p[k] != '.' && p[k] != '/'
    ensures |root| < |p| ==> HasNonDot(p, LastIndexOf('/', p) + 1, |root|)
    ensures |root| < |p| <==>
              && LastIndexOf('.', p) > LastIndexOf('/', p)
              && HasNonDot(p, LastIndexOf('/', p) + 1, LastIndexOf('.', p))
  {
    var sepIndex := LastIndexOf('/', p);
    var dotIndex := LastIndexOf('.', p);
    if dotIndex > sepIndex && HasNonDot(p, sepIndex + 1, dotIndex) then
      assert forall k :: dotIndex < k < |p| ==> p[k] != '.';
      assert forall k :: dotIndex < k < |p| ==> p[k] != '/';
      p[..dotIndex]
    else
      p
  }

  /** `os.path.join(dir, name)` for a relative `name` and a `dir` that does not end in '/'. */
  function Join(dir: string, name: string): string
  {
    dir + "/" + name
  }

  /** The basename of a joined path is the joined name, when that name has no '/'. */
  lemma {:induction false} BasenameOfJoin(dir: string, name: string)
    requires '/' !in name
    ensures Basename(Join(dir, name)) == name
  {
    var p := Join(dir, name);
    assert p[|dir|] == '/';
    assert p[|dir| + 1..] == name;
    AfterLastAt('/', p, |dir|);
  }

  /** For a single path component that does not start with '.', `splitext` cuts at the
      last '.', if there is one. */
  lemma {:induction false} SplitExtRootOfComponent(b: string)
    requires '/' !in b && |b| > 0 && b[0] != '.'
    ensures '.' in b ==> SplitExtRoot(b) == b[..LastIndexOf('.', b)]
    ensures '.' !in b ==> SplitExtRoot(b) == b
  {
    LastIndexOfUnique('/', b, -1);
    if '.' in b {
      var d := LastIndexOf('.', b);
      assert d > 0 by {
        var w :| 0 <= w < |b| && b[w] == '.';
      }
      assert HasNonDot(b, 0, d);
    } else {
      LastIndexOfUnique('.', b, -1);
    }
  }
}

=== FILE: sequences.dfy ===
/** Generic sequence helpers: an optional value, order-keeping filtering and summing. */
module Sequences {

  datatype Option<T> = None | Some(value: T)

  /** The elements of `s` that satisfy `p`, in their order in `s`. */
  function Filter<T(==,!new)>(p: T -> bool, s: seq<T>): (r: seq<T>)
    ensures |r| <= |s|
    ensures forall x :: x in r <==> x in s && p(x)
    decreases |s|
  {
    if |s| == 0 then []
    else
      assert s == [s[0]] + s[1..];
      (if p(s[0]) then [s[0]] else []) + Filter(p, s[1..])
  }

  /** Filtering distributes over concatenation: kept elements keep their relative order. */
  lemma {:induction false} FilterConcat<T(!new)>(p: T -> bool, a: seq<T>, b: seq<T>)
    ensures Filter(p, a + b) == Filter(p, a) + Filter(p, b)
    decreases |a|
  {
    if |a| == 0 {
      assert a + b == b;
    } else {
      assert (a + b)[0] == a[0];
      assert (a + b)[1..] == a[1..] + b;
      FilterConcat(p, a[1..], b);
    }
  }

  /** Filtering keeps a one-element sequence exactly when its element qualifies. */
  lemma FilterSingleton<T(!new)>(p: T -> bool, x: T)
    ensures Filter(p, [x]) == if p(x) then [x] else []
  {
    assert [x][1..] == [];
  }

  /** A filter keeps nothing exactly when no element qualifies. */
  lemma FilterEmpty<T(!new)>(p: T -> bool, s: seq<T>)
    ensures Filter(p, s) == [] <==> forall x :: x in s ==> !p(x)
  {
    var r := Filter(p, s);
    if r != [] {
      assert r[0] in r;
    }
  }

  /** Sum of `size` over the elements of `s`. */
  function SumOf<T>(size: T -> nat, s: seq<T>): nat
    decreases |s|
  {
    if |s| == 0 then 0 else size(s[0]) + SumOf(size, s[1..])
  }

  lemma {:induction false} SumConcat<T>(size: T -> nat, a: seq<T>, b: seq<T>)
    ensures SumOf(size, a + b) == SumOf(size, a) + SumOf(size, b)
    decreases |a|
  {
    if |a| == 0 {
      assert a + b == b;
    } else {
      assert (a + b)[1..] == a[1..] + b;
      SumConcat(size, a[1..], b);
    }
  }

  /** Filtering never adds to a sum. */
  lemma {:induction false} SumOfFilterAtMost<T(!new)>(size: T -> nat, p: T -> bool, s: seq<T>)
    ensures SumOf(size, Filter(p, s)) <= SumOf(size, s)
    decreases |s|
  {
    if |s| > 0 {
      var head: seq<T> := if p(s[0]) then [s[0]] else [];
      assert Filter(p, s) == head + Filter(p, s[1..]);
      SumConcat(size, head, Filter(p, s[1..]));
      if p(s[0]) {
        assert head[1..] == [];
        assert SumOf(size, head) == size(s[0]) + SumOf(size, []);
      }
      SumOfFilterAtMost(size, p, s[1..]);
    }
  }
}

=== FILE: server.dfy ===
/** The server's request validation and file-name handling (app.py): `allowed_file`,
    the checks and the single/bulk decision of `upload_file`, the archive entry names of
    `process_bulk_images_parallel`, and the names the download and preview routes use.
    Background removal, file I/O and uuid generation are outside the model: their
    outcomes arrive through an `Env` value. */
module Server {
  import opened Strings
  import opened Sequences
  import opened Paths

  /** `ALLOWED_EXTENSIONS`. */
  const AllowedExtensions: set<string> := {"png", "jpg", "jpeg", "webp", "bmp", "tiff"}

  /** The size limit `upload_file` checks: 500 * 1024 * 1024 bytes. */
  const MaxTotalBytes: nat := 500 * 1024 * 1024

  /** `MAX_CONTENT_LENGTH`: the framework refuses a longer request body, before
      `upload_file` gets to see any of its parts. */
  const MaxContentLength: nat := 500 * 1024 * 1024

  /** werkzeug's `max_form_parts` (Flask's `MAX_FORM_PARTS`), left at its default: the
      multipart parser refuses a body with more parts, again before `upload_file` sees any. */
  const MaxFormParts: nat := 1000

  /** `UPLOAD_FOLDER`. */
  const UploadFolder := "static/uploads"

  /** `allowed_file`: the name has a '.', and the lower-cased text after its last '.'
      (`rsplit('.', 1)[1].lower()`) is an allowed extension. */
  predicate AllowedFile(filename: string)
  {
    '.' in filename && Lower(AfterLast('.', filename)) in AllowedExtensions
  }

  /** `allowed_file` holds exactly when some '.' has no '.' after it and the lower-cased
      text after it is an allowed extension. */
  lemma {:induction false} AllowedFileIff(filename: string)
    ensures AllowedFile(filename) <==>
              exists i :: 0 <= i < |filename| && filename[i] == '.' && '.' !in filename[i + 1..]
                          && Lower(filename[i + 1..]) in AllowedExtensions
  {
    if '.' in filename {
      var i := LastIndexOf('.', filename);
      assert filename[i + 1..] == AfterLast('.', filename);
      forall j | 0 <= j < |filename| && filename[j] == '.' && '.' !in filename[j + 1..]
        ensures AfterLast('.', filename) == filename[j + 1..]
      {
        AfterLastAt('.', filename, j);
      }
    }
  }

  /** One part of the request's `file` field: werkzeug's `FileStorage`, of which the
      model keeps the client-supplied name and the byte size `seek`/`tell` measures. */
  datatype Upload = Upload(filename: string, size: nat)

  /** The loop's test `file and file.filename != '' and allowed_file(file.filename)`;
      a `FileStorage` is truthy exactly when its name is non-empty. */
  predicate IsValidUpload(u: Upload)
  {
    u.filename != "" && AllowedFile(u.filename)
  }

  /** `valid_files`: the parts that pass, in request order. */
  function ValidUploads(parts: seq<Upload>): seq<Upload>
  {
    Filter(IsValidUpload, parts)
  }

  function UploadBytes(u: Upload): nat
  {
    u.size
  }

  /** `total_size`: the sum of the sizes of the valid parts. */
  function TotalSize(valid: seq<Upload>): nat
  {
    SumOf(UploadBytes, valid)
  }

  /** Valid parts are exactly the parts with a non-empty, allowed name, in request order. */
  lemma {:induction false} ValidUploadsSpec(a: seq<Upload>, b: seq<Upload>, u: Upload)
    ensures u in ValidUploads(a) <==> u in a && u.filename != "" && AllowedFile(u.filename)
    ensures ValidUploads(a + b) == ValidUploads(a) + ValidUploads(b)
    ensures TotalSize(ValidUploads(a + b)) == TotalSize(ValidUploads(a)) + TotalSize(ValidUploads(b))
  {
    FilterConcat(IsValidUpload, a, b);
    SumConcat(UploadBytes, ValidUploads(a), ValidUploads(b));
  }

  /** The error replies of `upload_file`, and the 413 reply for an oversized body. */
  datatype UploadError =
    | NoFileSelected
    | NoValidImages
    | TotalTooLarge
    | ProcessingFailed
    | ProcessingError(detail: string)
    | RequestTooLarge

  /** The HTTP status of each error reply: 400 for a request refused by validation or by
      the size check, 413 for an oversized body, 500 when processing went wrong. */
  function Status(e: UploadError): (s: nat)
    ensures s == 400 <==> e.NoFileSelected? || e.NoValidImages? || e.TotalTooLarge?
    ensures s == 413 <==> e.RequestTooLarge?
    ensures s == 500 <==> e.ProcessingFailed? || e.ProcessingError?
    ensures s in {400, 413, 500}
  {
    match e
    case NoFileSelected => 400
    case NoValidImages => 400
    case TotalTooLarge => 400
    case ProcessingFailed => 500
    case ProcessingError(_) => 500
    case RequestTooLarge => 413
  }

  /** The `error` text of each error reply. None is empty, so the page shows it rather
      than its own fallback text. */
  function ErrorMessage(e: UploadError): (m: string)
    ensures m != ""
  {
    match e
    case NoFileSelected => "No file selected"
    case NoValidImages => "No valid images selected. Supported formats: JPG, PNG, WEBP, BMP, TIFF"
    case TotalTooLarge => "Total file size exceeds 500MB limit"
    case ProcessingFailed => "Failed to process image"
    case ProcessingError(detail) => ProcessingErrorPrefix + detail
    case RequestTooLarge => "File too large. Maximum size is 500MB"
  }

  const ProcessingErrorPrefix := "Processing error: "

  /** The texts of different fixed errors differ, and the text of a processing error
      gives back the exception's message. */
  lemma {:induction false} ErrorMessagesDistinct(a: UploadError, b: UploadError)
    ensures !a.ProcessingError? && !b.ProcessingError? ==> (ErrorMessage(a) == ErrorMessage(b) <==> a == b)
    ensures a.ProcessingError? ==> ErrorMessage(a)[|ProcessingErrorPrefix|..] == a.detail
  {
    if a.ProcessingError? {
      assert ErrorMessage(a)[|ProcessingErrorPrefix|..] == a.detail;
    } else if !b.ProcessingError? && a != b {
      FixedMessageEndings();
      assert LastOf(ErrorMessage(a)) != LastOf(ErrorMessage(b));
    }
  }

  function LastOf(m: string): char
    requires m != ""
  {
    m[|m| - 1]
  }

  /** How each fixed text ends: every ending is different. */
  lemma {:induction false} FixedMessageEndings()
    ensures LastOf(ErrorMessage(NoFileSelected)) == 'd'
    ensures LastOf(ErrorMessage(NoValidImages)) == 'F'
    ensures LastOf(ErrorMessage(TotalTooLarge)) == 't'
    ensures LastOf(ErrorMessage(ProcessingFailed)) == 'e'
    ensures LastOf(ErrorMessage(RequestTooLarge)) == 'B'
  {
  }

  /** The success replies: the `single` and the `bulk` JSON shapes. */
  datatype Outcome =
    | Single(outputFile: string, originalFile: string, fileCount: nat)
    | Bulk(outputFile: string, fileCount: nat, totalSize: nat)

  datatype Reply = Ok(outcome: Outcome) | Err(error: UploadError)

  /** What the world outside the model decides: the hex tokens uuid4 yields (`uploadToken(i)`
      for the i-th saved valid file, `outputToken` for the single result, `archiveToken` for
      the eight-character zip token), whether removing the background of the i-th file
      works, and the message of an exception that escapes the processing block, if any. */
  datatype Env = Env(
    uploadToken: nat -> string,
    outputToken: string,
    archiveToken: string,
    removalOk: nat -> bool,
    failure: Option<string>)

  /** The file name of the single result: `processed_<hex>.png`. */
  function SingleOutputName(token: string): string
  {
    "processed_" + token + ".png"
  }

  /** `os.path.basename(zip_path)` for `zip_path` = the upload folder joined with
      `batch_<hex8>.zip`. */
  function ArchiveOutputName(token: string): string
  {
    Basename(Join(UploadFolder, "batch_" + token + ".zip"))
  }

  /** `upload_file`, from the `'file' not in request.files` check to the JSON reply. The
      request's `file` parts arrive in `parts`; no parts means the field is missing. */
  function UploadFile(parts: seq<Upload>, env: Env): (r: Reply)
    ensures r == Err(NoFileSelected) <==> |parts| == 0
    ensures r == Err(NoValidImages) <==> |parts| > 0 && forall u :: u in parts ==> !IsValidUpload(u)
    ensures r == Err(TotalTooLarge) <==>
              |parts| > 0 && ValidUploads(parts) != [] && TotalSize(ValidUploads(parts)) > MaxTotalBytes
    ensures ValidUploads(parts) != [] && TotalSize(ValidUploads(parts)) <= MaxTotalBytes ==>
              && (env.failure.Some? ==> r == Err(ProcessingError(env.failure.value)))
              && (env.failure.None? && |ValidUploads(parts)| == 1 ==>
                    (r.Ok? <==> env.removalOk(0)) && (!env.removalOk(0) ==> r == Err(ProcessingFailed)))
              && (env.failure.None? && |ValidUploads(parts)| > 1 ==> r.Ok? && r.outcome.Bulk?)
    ensures r.Ok? ==>
              && 1 <= r.outcome.fileCount == |ValidUploads(parts)|
              && (r.outcome.Single? <==> r.outcome.fileCount == 1)
              && TotalSize(ValidUploads(parts)) <= MaxTotalBytes
              && env.failure.None?
    ensures r.Ok? && r.outcome.Single? ==>
              r.outcome.originalFile == ValidUploads(parts)[0].filename && env.removalOk(0)
    ensures r.Ok? && r.outcome.Single? ==> r.outcome.outputFile == SingleOutputName(env.outputToken)
    ensures r.Ok? && r.outcome.Bulk? ==> r.outcome.outputFile == ArchiveOutputName(env.archiveToken)
    ensures r.Ok? && r.outcome.Bulk? ==> r.outcome.totalSize == TotalSize(ValidUploads(parts))
    ensures r.Err? ==> Status(r.error) == 400 || env.failure.Some? || !env.removalOk(0)
  {
    if |parts| == 0 then Err(NoFileSelected)
    else
      var valid := ValidUploads(parts);
      var total := TotalSize(valid);
      FilterEmpty(IsValidUpload, parts);
      if |valid| == 0 then Err(NoValidImages)
      else if total > MaxTotalBytes then Err(TotalTooLarge)
      else if env.failure.Some? then Err(ProcessingError(env.failure.value))
      else if |valid| == 1 then
        if env.removalOk(0) then Ok(Single(SingleOutputName(env.outputToken), valid[0].filename, 1))
        else Err(ProcessingFailed)
      else
        Ok(Bulk(ArchiveOutputName(env.archiveToken), |valid|, total))
  }

  /** A request whose valid parts total exactly 500 MiB passes the size check. */
  lemma {:induction false} UploadLimitInclusive(parts: seq<Upload>, env: Env)
    requires ValidUploads(parts) != [] && TotalSize(ValidUploads(parts)) == MaxTotalBytes
    ensures UploadFile(parts, env) != Err(TotalTooLarge)
    ensures env.failure.None? && |ValidUploads(parts)| > 1 ==> UploadFile(parts, env).Ok?
  {
  }

  /** A request as the application receives it: a body longer than `MAX_CONTENT_LENGTH`,
      or one with more than `MaxFormParts` parts, is answered with 413 when `upload_file`
      first reads `request.files`; any other body reaches `upload_file`'s own checks. */
  function HandleUpload(contentLength: nat, parts: seq<Upload>, env: Env): (r: Reply)
    ensures r == Err(RequestTooLarge) <==> contentLength > MaxContentLength || |parts| > MaxFormParts
    ensures contentLength <= MaxContentLength && |parts| <= MaxFormParts ==> r == UploadFile(parts, env)
  {
    if contentLength > MaxContentLength || |parts| > MaxFormParts then Err(RequestTooLarge)
    else UploadFile(parts, env)
  }

  /** A multipart body holds every part's bytes and at least one byte of boundary and
      headers per part. */
  predicate BodyHolds(contentLength: nat, parts: seq<Upload>)
  {
    contentLength >= TotalSize(parts) + |parts|
  }

  /** Because the body limit equals `upload_file`'s size limit and the body is longer than
      its files, the size check of `upload_file` never fires, and valid files of 500 MiB
      or more are refused with 413. */
  lemma {:induction false} SizeCheckUnreachable(contentLength: nat, parts: seq<Upload>, env: Env)
    requires BodyHolds(contentLength, parts)
    ensures HandleUpload(contentLength, parts, env) != Err(TotalTooLarge)
    ensures ValidUploads(parts) != [] && TotalSize(ValidUploads(parts)) >= MaxTotalBytes ==>
              HandleUpload(contentLength, parts, env) == Err(RequestTooLarge)
  {
    SumOfFilterAtMost(UploadBytes, IsValidUpload, parts);
  }

  /** `os.path.join(UPLOAD_FOLDER, f"{hex}_{filename}")`: the saved input's path. */
  function InputPath(token: string, filename: string): string
  {
    Join(UploadFolder, token + "_" + filename)
  }

  /** The archive entry for an input: its basename without the last extension, followed by
      `_no_bg.png`. */
  function ArchiveEntryName(inputPath: string): string
  {
    SplitExtRoot(Basename(inputPath)) + "_no_bg.png"
  }

  /** The file name without its last extension, as `splitext` cuts it once a non-dot
      prefix is in front: everything before the last '.', or the whole name. */
  function Stem(filename: string): string
  {
    if '.' in filename then filename[..LastIndexOf('.', filename)] else filename
  }

  /** A prefix without '.' passes through `Stem` untouched. */
  lemma {:induction false} StemOfPrefixed(prefix: string, filename: string)
    requires '.' !in prefix
    ensures Stem(prefix + filename) == prefix + Stem(filename)
  {
    var b := prefix + filename;
    if '.' in filename {
      LastIndexOfConcatRight('.', prefix, filename);
      assert b[..|prefix| + LastIndexOf('.', filename)] == prefix + filename[..LastIndexOf('.', filename)];
    } else {
      assert '.' !in b;
    }
  }

  /** A hex token as uuid4 produces it: non-empty, without '.' or '/'. */
  predicate IsToken(token: string)
  {
    token != "" && '.' !in token && '/' !in token
  }

  /** For an uploaded name without '/', the entry name is the upload token, '_', the name
      without its last extension, and `_no_bg.png`. */
  lemma {:induction false} ArchiveEntryForUpload(token: string, filename: string)
    requires IsToken(token) && '/' !in filename
    ensures ArchiveEntryName(InputPath(token, filename)) == token + "_" + Stem(filename) + "_no_bg.png"
  {
    var b := token + "_" + filename;
    assert '/' !in b;
    BasenameOfJoin(UploadFolder, b);
    assert b[0] == token[0];
    SplitExtRootOfComponent(b);
    StemOfPrefixed(token + "_", filename);
  }

  /** Every entry name starts with the token its input was saved under. */
  lemma {:induction false} ArchiveEntryStartsWithToken(token: string, filename: string)
    requires IsToken(token) && '/' !in filename
    ensures StartsWith(ArchiveEntryName(InputPath(token, filename)), token)
  {
    ArchiveEntryForUpload(token, filename);
    StartsWithHead(token, Stem(filename), "_no_bg.png");
  }

  /** A string built as `head + "_" + mid + tail` starts with `head`. */
  lemma {:induction false} StartsWithHead(head: string, mid: string, tail: string)
    ensures StartsWith(head + "_" + mid + tail, head)
  {
    var e := head + "_" + mid + tail;
    assert e[..|head|] == head;
  }

  /** Inputs saved under different tokens of one length get different entry names, so
      no archive entry overwrites another. */
  lemma {:induction false} ArchiveEntriesDistinct(t1: string, f1: string, t2: string, f2: string)
    requires IsToken(t1) && IsToken(t2) && |t1| == |t2| && t1 != t2
    requires '/' !in f1 && '/' !in f2
    ensures ArchiveEntryName(InputPath(t1, f1)) != ArchiveEntryName(InputPath(t2, f2))
  {
    ArchiveEntryStartsWithToken(t1, f1);
    ArchiveEntryStartsWithToken(t2, f2);
    DistinctPrefixes(ArchiveEntryName(InputPath(t1, f1)), ArchiveEntryName(InputPath(t2, f2)), t1, t2);
  }

  /** Strings that start with different prefixes of one length are different. */
  lemma {:induction false} DistinctPrefixes(a: string, b: string, p: string, q: string)
    requires StartsWith(a, p) && StartsWith(b, q) && |p| == |q| && p != q
    ensures a != b
  {
  }

  /** The entry name planned for each valid file, in request order. */
  function TaskNames(valid: seq<Upload>, env: Env): (names: seq<string>)
    ensures |names| == |valid|
  {
    seq(|valid|, i requires 0 <= i < |valid| => ArchiveEntryName(InputPath(env.uploadToken(i), valid[i].filename)))
  }

  /** The entries the bulk archive receives: the planned name of each task whose
      background removal worked (`ok(i)`), in task order; the archive itself is written
      in completion order. */
  function ArchiveEntries(names: seq<string>, ok: nat -> bool): (entries: seq<string>)
    ensures |entries| <= |names|
    ensures |entries| == |names| <==> forall i :: 0 <= i < |names| ==> ok(i)
    ensures forall e :: e in entries ==> e in names
    ensures forall i :: 0 <= i < |names| && ok(i) ==> names[i] in entries
    ensures forall e :: e in entries ==> exists i :: 0 <= i < |names| && ok(i) && names[i] == e
    decreases |names|
  {
    if |names| == 0 then []
    else
      var last := |names| - 1;
      var rest := ArchiveEntries(names[..last], ok);
      assert forall e :: e in names[..last] ==> e in names;
      assert forall i :: 0 <= i < last ==> names[..last][i] == names[i];
      if ok(last) then rest + [names[last]] else rest
  }

  /** The bulk reply counts the valid files sent, not the entries that made it into the
      archive: one failed removal leaves the archive short while `file_count` stays. */
  lemma {:induction false} BulkCountIsRequestCount(parts: seq<Upload>, env: Env)
    requires UploadFile(parts, env).Ok? && UploadFile(parts, env).outcome.Bulk?
    ensures var valid := ValidUploads(parts);
      var entries := ArchiveEntries(TaskNames(valid, env), env.removalOk);
      && UploadFile(parts, env).outcome.fileCount == |valid|
      && |entries| <= UploadFile(parts, env).outcome.fileCount
      && ((exists i :: 0 <= i < |valid| && !env.removalOk(i)) ==>
            |entries| < UploadFile(parts, env).outcome.fileCount)
  {
  }

  /** `safe_filename` of the download and preview routes. */
  function SafeName(filename: string): string
  {
    Basename(filename)
  }

  const DownloadPrefix := "background_removed_"

  /** The name every archive is downloaded under. */
  const ArchiveDownloadName := "background_removed_images.zip"

  lemma {:induction false} ArchiveDownloadNameShape()
    ensures '/' !in ArchiveDownloadName && EndsWith(ArchiveDownloadName, ".zip")
  {
    assert ArchiveDownloadName == "background_removed_images" + ".zip";
  }

  /** `download_file`'s `download_name`. */
  function DownloadName(filename: string): (name: string)
    ensures '/' !in name
    ensures EndsWith(name, ".zip") <==> EndsWith(SafeName(filename), ".zip")
  {
    var safe := SafeName(filename);
    if EndsWith(safe, ".zip") then
      ArchiveDownloadNameShape();
      ArchiveDownloadName
    else
      DownloadPrefixKeepsZip(safe);
      DownloadPrefix + safe
  }

  /** The download prefix ends in '_', which ".zip" does not contain. */
  lemma {:induction false} DownloadPrefixKeepsZip(s: string)
    ensures EndsWith(DownloadPrefix + s, ".zip") <==> EndsWith(s, ".zip")
  {
    assert DownloadPrefix[|DownloadPrefix| - 1] == '_';
    assert '_' !in ".zip";
    PrefixedEndsWith(DownloadPrefix, s, ".zip");
  }

  /** Putting a prefix ending in a character the suffix lacks in front of a string does
      not change whether it ends with that suffix. */
  lemma {:induction false} PrefixedEndsWith(prefix: string, s: string, suffix: string)
    requires |prefix| >= |suffix| > 0 && prefix[|prefix| - 1] !in suffix
    ensures EndsWith(prefix + s, suffix) <==> EndsWith(s, suffix)
  {
    var t := prefix + s;
    if |s| >= |suffix| {
      assert t[|t| - |suffix|..] == s[|s| - |suffix|..];
    } else {
      var k := |suffix| - |s| - 1;
      assert t[|t| - |suffix|..][k] == prefix[|prefix| - 1];
    }
  }

  /** The safe name has no '/', ends the requested path, and is a fixed point, so the
      download and preview routes name the same file whether given a path or its base. */
  lemma {:induction false} SafeNameSpec(filename: string)
    ensures '/' !in SafeName(filename)
    ensures EndsWith(filename, SafeName(filename))
    ensures SafeName(SafeName(filename)) == SafeName(filename)
  {
    var safe := SafeName(filename);
    assert safe == filename[|filename| - |safe|..];
    BasenameIdempotent(filename);
  }

  /** Download names spelled out for the two cases. */
  lemma {:induction false} DownloadNameCases(filename: string)
    ensures EndsWith(SafeName(filename), ".zip") ==> DownloadName(filename) == "background_removed_images.zip"
    ensures !EndsWith(SafeName(filename), ".zip") ==>
              DownloadName(filename) == "background_removed_" + SafeName(filename)
  {
  }

  /** The files a success reply names, `processed_<hex>.png` or `batch_<hex8>.zip`, are
      served under their own names, and download as `background_removed_processed_<hex>.png`
      or `background_removed_images.zip`. */
  lemma {:induction false} RepliedFilesServedAsNamed(parts: seq<Upload>, env: Env)
    requires '/' !in env.outputToken && '/' !in env.archiveToken
    requires UploadFile(parts, env).Ok?
    ensures var out := UploadFile(parts, env).outcome;
      && SafeName(out.outputFile) == out.outputFile
      && (out.Single? ==> out.outputFile == "processed_" + env.outputToken + ".png")
      && (out.Single? ==> DownloadName(out.outputFile) == DownloadPrefix + out.outputFile)
      && (out.Bulk? ==> out.outputFile == "batch_" + env.archiveToken + ".zip")
      && (out.Bulk? ==> DownloadName(out.outputFile) == "background_removed_images.zip")
  {
    var out := UploadFile(parts, env).outcome;
    if out.Bulk? {
      ArchiveNameShape(env.archiveToken);
    } else {
      SingleNameShape(env.outputToken);
    }
  }

  /** The single reply's `original_file` is the name the client sent, while the input was
      saved as `<hex>_<name>`: the preview route, asked for `original_file`, looks for a
      file other than the one saved. */
  lemma {:induction false} OriginalFileIsNotSavedName(parts: seq<Upload>, env: Env)
    requires UploadFile(parts, env).Ok? && UploadFile(parts, env).outcome.Single?
    requires IsToken(env.uploadToken(0)) && '/' !in UploadFile(parts, env).outcome.originalFile
    ensures var original := UploadFile(parts, env).outcome.originalFile;
      SafeName(original) != SafeName(InputPath(env.uploadToken(0), original))
  {
    var original := UploadFile(parts, env).outcome.originalFile;
    var saved := env.uploadToken(0) + "_" + original;
    assert '/' !in saved;
    BasenameOfJoin(UploadFolder, saved);
    assert |SafeName(original)| < |saved|;
  }

  /** The bulk reply's file name is `batch_<hex8>.zip`: no '/', ends in ".zip". */
  lemma {:induction false} ArchiveNameShape(token: string)
    requires '/' !in token
    ensures ArchiveOutputName(token) == "batch_" + token + ".zip"
    ensures '/' !in ArchiveOutputName(token) && EndsWith(ArchiveOutputName(token), ".zip")
  {
    var z := "batch_" + token + ".zip";
    assert '/' !in z;
    BasenameOfJoin(UploadFolder, z);
    assert z[|z| - 4..] == ".zip";
  }

  /** The single reply's file name has no '/' and ends in ".png", not ".zip". */
  lemma {:induction false} SingleNameShape(token: string)
    requires '/' !in token
    ensures '/' !in SingleOutputName(token) && !EndsWith(SingleOutputName(token), ".zip")
  {
    var n := SingleOutputName(token);
    assert n[|n| - 4..] == ".png";
  }
}

=== FILE: strings.dfy ===
/** Character and string helpers shared by the browser model and the server model. */
module Strings {

  /** Index of the last occurrence of `c` in `s`, or -1 when `c` does not occur. */
  function LastIndexOf(c: char, s: string): (r: int)
    ensures -1 <= r < |s|
    ensures r >= 0 ==> s[r] == c
    ensures forall k :: r < k < |s| ==> s[k] != c
    decreases |s|
  {
    if |s| == 0 then -1
    else if s[|s| - 1] == c then |s| - 1
    else
      var r := LastIndexOf(c, s[..|s| - 1]);
      assert forall k :: r < k < |s| - 1 ==> s[..|s| - 1][k] == s[k];
      r
  }

  /** The three facts `LastIndexOf` promises determine it. */
  lemma {:induction false} LastIndexOfUnique(c: char, s: string, i: int)
    requires -1 <= i < |s|
    requires i >= 0 ==> s[i] == c
    requires forall k :: i < k < |s| ==> s[k] != c
    ensures LastIndexOf(c, s) == i
  {
  }

  /** When `b` holds a `c`, the last `c` of `a + b` is the last `c` of `b`. */
  lemma {:induction false} LastIndexOfConcatRight(c: char, a: string, b: string)
    requires c in b
    ensures LastIndexOf(c, a + b) == |a| + LastIndexOf(c, b)
  {
    var ab := a + b;
    var j := LastIndexOf(c, b);
    assert j >= 0 by {
      var w :| 0 <= w < |b| && b[w] == c;
    }
    assert ab[|a| + j] == c;
    forall k | |a| + j < k < |ab|
      ensures ab[k] != c
    {
      var kb := k - |a|;
      assert ab[k] == b[kb];
      assert j < kb < |b|;
    }
    LastIndexOfUnique(c, ab, |a| + j);
  }

  /** The text after the last `c` in `s`; all of `s` when `c` does not occur. */
  function AfterLast(c: char, s: string): (r: string)
    ensures c !in r
    ensures |r| <= |s| && r == s[|s| - |r|..]
    ensures |r| < |s| ==> s[|s| - |r| - 1] == c
    ensures c !in s ==> r == s
  {
    s[LastIndexOf(c, s) + 1..]
  }

  /** Any `c`-free suffix that is the whole text or follows a `c` is `AfterLast`. */
  lemma {:induction false} AfterLastUnique(c: char, s: string, t: string)
    requires c !in t
    requires |t| <= |s| && t == s[|s| - |t|..]
    requires |t| < |s| ==> s[|s| - |t| - 1] == c
    ensures AfterLast(c, s) == t
  {
    LastIndexOfBeforeSuffix(c, s, t);
  }

  /** The position in front of a `c`-free suffix that follows a `c` is the last `c`. */
  lemma {:induction false} LastIndexOfBeforeSuffix(c: char, s: string, t: string)
    requires c !in t
    requires |t| <= |s| && t == s[|s| - |t|..]
    requires |t| < |s| ==> s[|s| - |t| - 1] == c
    ensures LastIndexOf(c, s) == |s| - |t| - 1
  {
    var i := |s| - |t| - 1;
    forall k | i < k < |s|
      ensures s[k] != c
    {
      var j := k - (i + 1);
      assert t[j] == s[k];
      assert t[j] in t;
    }
    LastIndexOfUnique(c, s, i);
  }

  /** The `i` of the last `c` in `s` gives `AfterLast` as the slice after it. */
  lemma {:induction false} AfterLastAt(c: char, s: string, i: nat)
    requires i < |s| && s[i] == c && c !in s[i + 1..]
    ensures AfterLast(c, s) == s[i + 1..]
  {
    AfterLastUnique(c, s, s[i + 1..]);
  }

  predicate IsUpper(ch: char)
  {
    'A' <= ch <= 'Z'
  }

  /** ASCII lower-casing of one character; every other character is kept. */
  function LowerChar(ch: char): (r: char)
    ensures !IsUpper(r)
    ensures IsUpper(ch) ==> r as int == ch as int + 32
    ensures !IsUpper(ch) ==> r == ch
  {
    if IsUpper(ch) then (ch as int + 32) as char else ch
  }

  /** ASCII lower-casing of a string, character by character. */
  function Lower(s: string): (r: string)
    ensures |r| == |s|
    ensures forall i :: 0 <= i < |s| ==> r[i] == LowerChar(s[i])
  {
    seq(|s|, i requires 0 <= i < |s| => LowerChar(s[i]))
  }

  predicate StartsWith(s: string, prefix: string)
  {
    |prefix| <= |s| && s[..|prefix|] == prefix
  }

  predicate EndsWith(s: string, suffix: string)
  {
    |suffix| <= |s| && s[|s| - |suffix|..] == suffix
  }
}
